=== FILE: README.md ===
# bevy_mod_adwaita render bridge: a Dafny model

This project models the sequential core of `bevy_mod_adwaita`. That library renders a
Bevy app into a GTK/libadwaita window without copying pixels through the CPU. The
render thread draws into a Vulkan image whose memory is exported as a file
descriptor. The UI thread imports that descriptor as a dma-buf texture.

The model covers four pieces.

- **The render-target exporter and surface description** (`src/render.rs`). These are
  pure builders of every descriptor the exporter hands to Vulkan, wgpu-hal and wgpu,
  and of the record of values given to GDK's dma-buf texture builder.
  - The values the driver returns are an oracle input (`Render.NativeResults`): the
    image, the memory requirement, the memory, the fd and the texture view.
  - Agreement between the descriptors is stated through the wgpu → wgpu-hal → Vulkan
    translation tables (`Conv`).
  - The DRM format code is stated through the `fourcc_code` packing of the Linux
    header `include/uapi/drm/drm_fourcc.h` (`Fourcc`).
- **The per-window resize poll** (`poll_windows`, `src/lib.rs`). It is a pure decision
  on the `AdwaitaWindow` record.
  - The size and scale atomics start at the sentinel -1.
  - The pixel size is `(max(w,1)*s, max(h,1)*s)`.
  - A new target is exported only when that size changes.
  - An export overwrites slot A ("next frame to render").
- **The frame relay** (`extract_windows`, `send_frame_to_windows`,
  `put_back_next_frame_if_not_sent`). There are two one-place slots, each an
  `Option<Frame>`: store overwrites and take swaps with `None`. The render-world
  carrier holds `next_frame_to_send`. One pass runs extraction, then send, then
  put-back.
- **The world around them.** This part covers:
  - opening a window and choosing its random, fresh render-target handle;
  - the UI thread's size reports, its closing a window and its taking a frame from
    slot B;
  - camera retargeting;
  - the exit conditions;
  - an invariant that holds over every run of these steps.

Files: `common.dfy` (machine integers, `UVec2`, `Option`), `frame_slot.dfy`,
`vulkan.dfy`, `wgpu.dfy` (wgpu, wgpu-hal and the translation tables), `fourcc.dfy`,
`render.dfy`, `window.dfy`, `relay.dfy`, `cameras.dfy`, `bridge.dfy`.

Where the two source files disagree, the model follows `src/lib.rs`.

- `src/lib.rs:343-349` calls `setup_render_target(size, device)`. It expects the
  manual texture view and the fd back, then inserts the view into the map itself.
- `src/render.rs:103-108, 240` declares a four-argument version that does the insert
  itself.
- `Render.SetupRenderTarget` has the `src/lib.rs` shape, and `Window.Poll` does the
  insert.

Two further facts about the code shape what is proved.

- `poll_windows` clamps width and height with `max(…, 1)` but not the scale factor
  (`src/lib.rs:336`). A report with scale factor 0 therefore computes the size (0, 0).
  - On a fresh window, whose applied size starts at (0, 0), that is no change and
    never exports (`Window.ScaleZeroNeverExports`).
  - After a non-zero size has been applied it is a change, and the poll creates and
    exports a 0×0 image. The Vulkan specification's valid-usage rules for
    `VkImageCreateInfo` require `extent.width`, `extent.height` and `extent.depth` to
    be greater than 0. See "## Findings".
- The put-back is an unconditional store (`src/lib.rs:403-406`).
  `Relay.PutBackCanReplaceNewerFrame` records that an unsent older frame replaces a
  newer one stored into slot A in the meantime. That needs a poll between extraction
  and put-back, which the sequential model does not otherwise run.

## Model

| member | source | states |
|---|---|---|
| `Common.TryU32` | src/lib.rs:328-334 | converting an `i32` atomic to `u32` succeeds exactly on non-negative values and keeps the value |
| `FrameSlot.Store` | src/lib.rs:358-360 | a store overwrites: whatever the slot held, the next take hands out the value just stored |
| `FrameSlot.Take` | src/lib.rs:374 | a take hands out exactly the slot's content and leaves the slot empty |
| `FrameSlot.LastStoreWins` | src/lib.rs:358-360 | after any run of stores with no take in between, the next take sees exactly the last value stored |
| `FrameSlot.TakeEmpty` | src/lib.rs:374-376 | a take on an empty slot reports empty and leaves it empty |
| `Fourcc.CharsOfCode` | src/render.rs:251-254 | unpacking a packed DRM fourcc gives back its four characters |
| `Fourcc.CodeOfChars` | src/render.rs:251-254 | every 32-bit code is the packing of its own four characters, so packing is a bijection |
| `Fourcc.RGBA8888Value` | src/render.rs:251-254 | `0x34324152` is `fourcc_code('R','A','2','4')` and decodes to "RA24" |
| `Render.SetupRenderTarget` | src/render.rs:103-243 | the view has the requested size and the RGBA8 sRGB format and the fd is the driver's; the Vulkan image, wgpu-hal texture and wgpu texture describe one texture under the translation tables (extent, format, usage, mips, samples, dimension); opaque-fd export is requested at image creation, allocation and fd retrieval alike; each call uses the object the previous one returned; the image is a 1-mip, 1-sample 2D colour attachment, copyable, of the requested size, with optimal tiling, exclusive sharing and an undefined initial layout |
| `Render.BuildDmabufTexture` | src/render.rs:245-264 | the dma-buf record has the given width and height, the "RA24" fourcc, modifier 0 and exactly one plane carrying the fd at offset 0, whose stride is the format's bytes per texel times the width |
| `Render.DmabufDescribesTarget` | src/render.rs:248-261 | the surface built from an export has the exported image's width, height and fd, with rows as wide as the image's texels (pixel layout is not compared; see "## Left out") |
| `Window.Opened` | src/lib.rs:164-197 | the inserted component is open and not yet reported (all three atomics at -1), has applied size (0, 0) and both slots empty, and carries the drawn handle and the primary marker as given |
| `Window.ChooseHandle` | src/lib.rs:179-185 | the chosen handle is not among those in use; a free one exists whenever fewer than 2^32 handles are in use |
| `Window.Poll` | src/lib.rs:316-361 | a closed window is despawned, with no export and no slot write; while any atomic is negative nothing changes; otherwise the applied size becomes `(max(w,1)*s, max(h,1)*s)`; an export happens exactly when that size differs from the last one; after an export, slot A holds a fresh frame of that size with the driver's fd, and the views entry for the window's handle is replaced by a view of that size; nothing else changes; every open window is polled as the reference `Window.PolledAs` says |
| `Window.ZeroScaleExportsEmptyTarget` | src/lib.rs:336-344 | as written: a window at applied size 800x600 that reports (800, 600, scale 0) exports a 0x0 target, whose Vulkan image extent has width and height 0 |
| `Window.PollNonEmpty` | src/lib.rs:316-361 | corrected: a closed window is despawned; a scale-0 report on an open window leaves the window and the views map unchanged with no export; any other report is polled exactly as `Window.Poll` does; an export happens exactly when the applied size changes, is never empty, is the frame in slot A, and installs its view under the window's handle; otherwise the views map is unchanged |
| `Window.ExportsAreSizeChanges` | src/lib.rs:336-341 | over any sequence of reports, each followed by a poll, the number of exports equals the number of changes of the computed pixel size (a reference count independent of exports), and the last applied size is the one the reports leave in force |
| `Window.ScaleZeroNeverExports` | src/lib.rs:195 | since the last applied size starts at (0, 0), reports whose scale factor is 0 never cause an export |
| `Window.RepeatedReportExportsAtMostOnce` | src/lib.rs:337-339 | the same report twice in a row causes at most one export |
| `Window.DuplicateReportExportsOnce` | src/lib.rs:336-341 | on a fresh window, two reports of (800, 600, scale 1) cause exactly one export, of an 800x600 target |
| `Window.OpenedIsSkipped` | src/lib.rs:164-166 | a freshly opened window, at the -1 sentinel, is left untouched by a poll |
| `Relay.Extract` | src/lib.rs:371-385 | a carrier is created exactly when slot A held a frame; it carries exactly that frame, and slot A is then empty |
| `Relay.Send` | src/lib.rs:387-399 | a carried frame overwrites slot B and the carrier is emptied; without a carried frame the window is unchanged |
| `Relay.PutBack` | src/lib.rs:401-409 | a frame still carried is stored back into slot A; otherwise the window is unchanged, so it never creates a frame |
| `Relay.Pass` | src/lib.rs:64-68 | in one extract → send → put-back pass, in the order the render app schedules them, a frame taken from slot A ends in slot B with slot A empty; an empty slot A leaves the window unchanged |
| `Relay.PassNoFabrication` | src/lib.rs:401-409 | after a pass the slots hold only frames they held before |
| `Relay.PutBackAfterSendIsNoop` | src/lib.rs:401-409 | after a send, the put-back changes nothing |
| `Relay.UnsentFrameIsPutBack` | src/lib.rs:401-409 | if a carried frame is not sent, the put-back restores the window to its state before extraction |
| `Relay.PutBackCanReplaceNewerFrame` | src/lib.rs:403-406 | if a newer frame was stored into slot A while an older one was still carried, the put-back replaces the newer one |
| `Cameras.TargetOf` | src/lib.rs:212-214 | a window's render target is its manual texture view, named by its handle, never a window reference |
| `Cameras.SinglePrimary` | src/lib.rs:255-257 | the primary-window query yields a window exactly when one window carries the primary marker |
| `Cameras.OnCameraInserted` | src/lib.rs:250-267 | a new camera's target changes exactly when it targets the primary window and there is exactly one primary window; it then targets that window's texture view |
| `Cameras.OnPrimaryInserted` | src/lib.rs:269-288 | afterwards no camera targets the primary window; cameras that targeted it now target the new primary's view; all others are unchanged |
| `Cameras.RetargetIdempotent` | src/lib.rs:283-287 | retargeting again, even for another window, leaves retargeted cameras unchanged |
| `Cameras.InsertedAgreesWithExisting` | src/lib.rs:250-288 | with a single primary window, a newly inserted camera gets the same target the existing-camera system would have given it when that window became primary |
| `Cameras.InsertedIdempotent` | src/lib.rs:250-267 | inserting a camera's resulting target again changes nothing |
| `Cameras.RetargetedCameraKept` | src/lib.rs:250-288 | a camera already retargeted by the existing-camera system is left alone by the insertion system, whatever the windows are |
| `Bridge.OpenAsWritten` | src/lib.rs:179-185 | as written: the new window's handle avoids only the keys of the views map |
| `Bridge.AsWrittenOpenCanCollide` | src/lib.rs:179-185 | two windows opened before any poll may both be given handle 0 under the as-written check |
| `Bridge.SharedHandleBreaksTarget` | src/lib.rs:349 | two windows sharing a handle and reporting different sizes leave the first window with a view of the wrong size |
| `Bridge.Open` | src/lib.rs:179-197 | corrected: the handle avoids both the views map and the handles of open windows, so open windows keep distinct handles |
| `Bridge.PollAll` | src/lib.rs:310-362 | the `i`-th window kept is the `i`-th input not closed (`Bridge.Survivors`), polled against its own driver answer as `Window.PolledAs` says: unchanged apart from applied size and slot A, applied size the computed one once reported, slot A the driver's frame when that size changed; the exports are exactly the new slot-A frames of the windows whose applied size changed, one per window, in window order; kept windows are open; a primary window is still open afterwards exactly when one was open before; handles stay within and distinct among the original ones |
| `Bridge.PollAllViews` | src/lib.rs:349 | after a poll the views map's keys are the old keys plus the handles of the windows whose applied size changed, and every other entry is unchanged |
| `Bridge.PollAllKeepsOtherViews` | src/lib.rs:349 | polling changes no views entry for a handle that none of the polled windows owns |
| `Bridge.PollMakesCurrent` | src/lib.rs:341-360 | a window that was current (its views entry has its applied size, and a frame in slot A is the installed export) is still current after its own poll |
| `Bridge.PollAllKeepsCurrent` | src/lib.rs:316-361 | a poll over windows with distinct handles keeps every window's views entry and slot A current |
| `Bridge.PollAllNoFabrication` | src/lib.rs:350-360 | after a poll, the slots hold only frames they held before or frames the poll exported |
| `Bridge.RenderPassNoFabrication` | src/lib.rs:387-409 | a render pass over all windows puts no new frame in any slot |
| `Bridge.UpdateKeepsInv` | src/lib.rs:164-177 | UI-thread writes to the atomics, closing, and taking from slot B keep the invariant and add no frame |
| `Bridge.OpenKeepsInv` | src/lib.rs:187-197 | with the corrected open (`Bridge.Open`): opening a window with a handle no open window holds keeps the invariant and adds no frame |
| `Bridge.RenderKeepsInv` | src/lib.rs:371-409 | a render pass keeps the invariant and adds no frame |
| `Bridge.StepKeepsInv` | src/lib.rs:310-409 | with the corrected open (`Bridge.Open`), whose fresh handle every open step requires: every step keeps the invariant and adds no frame except those it exports |
| `Bridge.RunKeepsInv` | src/lib.rs:310-409 | with the corrected open (`Bridge.Open`), whose fresh handle every open step requires: over any run of steps, open windows never share a handle, every window's views entry has its applied size, slot A holds only the installed export, and every frame in a slot at the end was there at the start or was exported during the run |
| `Bridge.EndToEnd` | src/lib.rs:336-397 | a window reporting (640, 480, scale 1) gets one 640x480 export, which reaches slot B in the next pass and can be taken by the UI thread exactly once |
| `Bridge.ExitAfterPoll` | src/lib.rs:290-308 | after a poll, "on all closed" exits exactly when every window had its closed flag set, and "on primary closed" exactly when no primary window was open |
| `Bridge.ExitRequested` | src/lib.rs:290-308 | "on primary closed" fires exactly when no window carries the primary marker (no first primary window exists); "on all closed" fires exactly when no window is left, and so only when no primary window is left either; "don't exit" never fires |
| `Bridge.PrimaryCloseThenPollExits` | src/lib.rs:290-298 | in a run with one primary window: a poll while it is open does not ask an "on primary closed" app to exit, and after the UI thread closes it the next poll does |

## Findings

| source | as written | input that shows it | evidently intended | confidence | as-written member | corrected member |
|---|---|---|---|---|---|---|
| src/lib.rs:179-185 | the new handle only has to be absent from the manual texture views map, but a window's view enters that map at its first export (src/lib.rs:349), not when it is opened | two windows opened before any poll, with an empty views map: the random draw may return handle 0 both times; after both report different sizes and are polled, the second export replaces the first window's view (`Bridge.SharedHandleBreaksTarget`) | render-target handles are unique among open windows | medium (a random `u32` draw collides with probability 2^-32 per pair); not executed | `Bridge.OpenAsWritten` (`Bridge.AsWrittenOpenCanCollide`) | `Bridge.Open` (`Bridge.RunKeepsInv`) |
| src/lib.rs:336 | the scale factor is not clamped the way width and height are (`max(…, 1)`), so a report of scale 0 computes the size (0, 0); once a non-zero size has been applied that is a change, and the poll creates and exports a 0×0 image | a window at applied size 800x600 whose UI side reports (800, 600, scale 0) (`Window.ZeroScaleExportsEmptyTarget`) | no empty render target is exported, since Vulkan's valid-usage rules for `VkImageCreateInfo` require every extent to be greater than 0; the corrected poll treats a scale-0 report like one not yet made | plausible, not executed (it depends on the UI side ever writing a scale factor of 0; the UI-thread code is not part of this model) | `Window.ZeroScaleExportsEmptyTarget` (`Window.Poll`) | `Window.PollNonEmpty` |

## Left out

- Vulkan, wgpu-hal and wgpu calls (`create_image`, `get_image_memory_requirements2`,
  `allocate_memory`, `bind_image_memory2`, `get_memory_fd`, `texture_from_raw`,
  `create_texture_from_hal`, `create_view`) are foreign code. What they return is the
  oracle `Render.NativeResults`.
  - Their failures end the process (`.expect`), so the model assumes they succeed.
- GDK's `DmabufTextureBuilder::build` is foreign code. Only the record of values
  passed to it is modelled, and its failure is likewise fatal.
- `create_renderer` and `render_plugin` are device and instance set-up through
  foreign calls. So are `window_plugin`, the plugin's system registration and the
  spawning of the primary window; only the phase order they establish is modelled.
- The Adwaita UI thread, the `WindowOpen`/`WindowCommand` channels and the
  fire-and-forget `set_maximized`, `set_fullscreen` and `set_title` commands are left
  out (threads and I/O). The UI thread appears only through its writes to the atomics
  and its take from slot B.
- Atomic memory orderings and true interleaving of the main app and the render app
  are left out. The phases run in one fixed sequential order.
  - "Newest frame wins" is not claimed.
  - `Relay.PutBackCanReplaceNewerFrame` records the one interleaving that would
    break it.
- Bevy ECS mechanics are left out: commands, observers, query iteration order
  (taken as sequence order), `despawn_recursive` (taken as removal from the window
  sequence) and the per-frame clearing of render-world entities (a carrier lives for
  one pass).
- Logging is left out, and so is the distribution of `rand::random` (the draw is a
  nondeterministic choice).
- Lifetimes of the fd, image, memory and reference-counted texture views are left
  out. The source never releases the image or memory ("todo cleanup memory and image
  here"), and it never removes a despawned window's views entry. The model keeps that
  entry too.
- The `Conv` translation tables stand for wgpu's and wgpu-hal's own format and usage
  conversions, which are not part of this model. They cover colour formats only.
- `Window.PollNonEmpty`: the corrected poll is stated and proved on its own. The
  run-level model (`Bridge`) polls as written with `Window.Poll`, because its
  theorems (the run invariant, no fabricated frames, the exit conditions) hold for
  the code as it is, empty exports included; they do not depend on the correction.
- `Window.Poll`: requires `max(w,1)*s` and `max(h,1)*s` to fit in `u32`. In the
  source this product overflows, panicking in debug builds and wrapping in release
  builds. The model does not follow the overflow.
- `Render.DmabufDescribesTarget`: compares width, height, fd and stride only.
  Agreement of pixel format, tiling and memory handle type between the exported
  image and the dma-buf record is not modelled. The record's fourcc "RA24",
  modifier 0 (linear) and the image's `R8G8B8A8_SRGB` format, optimal tiling and
  opaque-fd export are each stated as constants, but no layout semantics relate them.
- `Render.BuildDmabufTexture`: requires `size.x * 4` to fit in `u32`, for the same
  reason.
- `Window.ChooseHandle`: requires fewer than 2^32 handles in use. Otherwise the
  source's loop never ends.

=== FILE: bridge.dfy ===
/** The bridge as a whole (`src/lib.rs`): the windows of the main world and the
    manual texture views map, the steps that change them (opening a window, the
    UI thread's reports, the resize poll, a render pass, the UI thread taking a
    frame) and the invariants every run of those steps keeps. */
module Bridge {
  import opened Common
  import FrameSlot
  import Render
  import W = Window
  import Relay
  import Cameras

  datatype World = World(windows: seq<W.Window>, views: W.Views)

  /** The render-target handles of a sequence of windows. */
  function Handles(ws: seq<W.Window>): set<W.Handle>
    decreases |ws|
  {
    if |ws| == 0 then {} else {ws[0].handle} + Handles(ws[1..])
  }

  /** No two windows share a render-target handle. */
  predicate HandlesDistinct(ws: seq<W.Window>)
    decreases |ws|
  {
    |ws| == 0 || (ws[0].handle !in Handles(ws[1..]) && HandlesDistinct(ws[1..]))
  }

  lemma {:induction false} HandlesAppend(ws: seq<W.Window>, w: W.Window)
    ensures Handles(ws + [w]) == Handles(ws) + {w.handle}
    ensures HandlesDistinct(ws) && w.handle !in Handles(ws) ==> HandlesDistinct(ws + [w])
    decreases |ws|
  {
    if |ws| > 0 {
      assert (ws + [w])[1..] == ws[1..] + [w];
      HandlesAppend(ws[1..], w);
    }
  }

  /** Windows with the same handles, position by position, have the same
      handle set and are distinct together. */
  lemma {:induction false} SameHandles(ws: seq<W.Window>, ws': seq<W.Window>)
    requires |ws| == |ws'|
    requires forall i :: 0 <= i < |ws| ==> ws[i].handle == ws'[i].handle
    ensures Handles(ws) == Handles(ws')
    ensures HandlesDistinct(ws) <==> HandlesDistinct(ws')
    decreases |ws|
  {
    if |ws| > 0 {
      SameHandles(ws[1..], ws'[1..]);
    }
  }

  /** The window's camera target is current: once a size has been applied,
      the window's view in the map has that size; and a frame waiting in slot A
      is the export whose view is installed, at the applied size. */
  predicate Current(w: W.Window, views: W.Views) {
    && (w.lastSize != UVec2(0, 0) ==> w.handle in views && views[w.handle].size == w.lastSize)
    && (w.nextToRender.Some? ==>
          var f := w.nextToRender.value;
          && f.dmabuf.size == w.lastSize
          && w.handle in views
          && views[w.handle] == Render.ManualTextureView(f.textureView, f.dmabuf.size, Render.TEXTURE_FORMAT))
  }

  predicate AllCurrent(ws: seq<W.Window>, views: W.Views) {
    forall i :: 0 <= i < |ws| ==> Current(ws[i], views)
  }

  predicate AllFit(ws: seq<W.Window>) {
    forall i :: 0 <= i < |ws| ==> W.SizeFits(ws[i])
  }

  /** What every reachable world satisfies. */
  predicate Inv(world: World) {
    && AllFit(world.windows)
    && HandlesDistinct(world.windows)
    && AllCurrent(world.windows, world.views)
  }

  /** The frames held in the slots of all windows. */
  function AllFrames(ws: seq<W.Window>): set<W.Frame>
    decreases |ws|
  {
    if |ws| == 0 then {} else Relay.Frames(ws[0]) + AllFrames(ws[1..])
  }

  lemma {:induction false} AllFramesUpdate(ws: seq<W.Window>, i: nat, w: W.Window)
    requires i < |ws|
    ensures AllFrames(ws[i := w]) <= AllFrames(ws) + Relay.Frames(w)
    decreases i
  {
    if i > 0 {
      assert ws[i := w][1..] == ws[1..][i - 1 := w];
      AllFramesUpdate(ws[1..], i - 1, w);
    }
  }

  lemma {:induction false} AllFramesMember(ws: seq<W.Window>, i: nat)
    requires i < |ws|
    ensures Relay.Frames(ws[i]) <= AllFrames(ws)
    decreases i
  {
    if i > 0 {
      AllFramesMember(ws[1..], i - 1);
    }
  }

  // ---------------------------------------------------------------------------
  // Opening a window

  function OpenWith(world: World, h: W.Handle, primary: bool): World {
    world.(windows := world.windows + [W.Opened(h, primary)])
  }

  /** `AdwaitaWindow::open` as written: the handle avoids only the keys of the
      views map. A window's view enters the map at its first export, not when
      it is opened. */
  method OpenAsWritten(world: World, primary: bool) returns (world': World, h: W.Handle)
    requires |world.views.Keys| < U32_END
    ensures h !in world.views
    ensures world' == OpenWith(world, h, primary)
  {
    h := W.ChooseHandle(world.views.Keys);
    world' := OpenWith(world, h, primary);
  }

  /** The handle check as written lets two windows opened before any poll draw
      the same handle: the second open sees the same views map as the first. */
  lemma AsWrittenOpenCanCollide()
    ensures var w1 := OpenWith(World([], map[]), 0, true);
            && 0 !in w1.views
            && !HandlesDistinct(OpenWith(w1, 0, false).windows)
  {
    var w2 := OpenWith(OpenWith(World([], map[]), 0, true), 0, false);
    assert w2.windows[1..] == [W.Opened(0, false)];
    assert 0 in Handles(w2.windows[1..]);
  }

  /** A shared handle breaks the bridge: two windows with the same handle
      that report different sizes leave the first window's camera rendering
      into a view of the second window's size. */
  lemma SharedHandleBreaksTarget(native: Render.NativeResults)
    ensures var a := W.WithReport(W.Opened(0, true), W.Report(640, 480, 1));
            var b := W.WithReport(W.Opened(0, false), W.Report(800, 600, 1));
            var r := PollAll([a, b], map[], [native, native]);
            |r.0| == 2 && !Current(r.0[0], r.1)
  {
    var a := W.WithReport(W.Opened(0, true), W.Report(640, 480, 1));
    var b := W.WithReport(W.Opened(0, false), W.Report(800, 600, 1));
    var pa := W.Poll(a, map[], native);
    var pb := W.Poll(b, pa.views, native);
    assert pa.window.lastSize == UVec2(640, 480);
    assert pb.views[0].size == UVec2(800, 600);
    assert [a, b][1..] == [b];
    assert [native, native][1..] == [native];
    assert [b][1..] == [];
    assert PollAll([b], pa.views, [native]).0 == [pb.window];
    assert PollAll([b], pa.views, [native]).1 == pb.views;
    var r := PollAll([a, b], map[], [native, native]);
    assert r.0 == [pa.window, pb.window];
    assert r.1 == pb.views;
  }

  /** The corrected open: the handle avoids both the views map and the handles
      of the windows already open, so open windows never share a handle. */
  method Open(world: World, primary: bool) returns (world': World, h: W.Handle)
    requires |world.views.Keys + Handles(world.windows)| < U32_END
    ensures h !in world.views && h !in Handles(world.windows)
    ensures world' == OpenWith(world, h, primary)
    ensures HandlesDistinct(world.windows) ==> HandlesDistinct(world'.windows)
  {
    h := W.ChooseHandle(world.views.Keys + Handles(world.windows));
    world' := OpenWith(world, h, primary);
    HandlesAppend(world.windows, W.Opened(h, primary));
  }

  // ---------------------------------------------------------------------------
  // The resize poll over all windows

  /** The windows whose closed flag is not set, in order: the ones a poll
      keeps. */
  function Survivors(ws: seq<W.Window>): (r: seq<W.Window>)
    ensures |r| <= |ws|
    ensures forall i :: 0 <= i < |r| ==> !r[i].closed
    ensures AllFit(ws) ==> AllFit(r)
    ensures |r| == 0 <==> forall i :: 0 <= i < |ws| ==> ws[i].closed
    decreases |ws|
  {
    if |ws| == 0 then []
    else
      var rest := Survivors(ws[1..]);
      assert (forall i :: 0 <= i < |ws| ==> ws[i].closed) <==> ws[0].closed && |rest| == 0 by {
        if ws[0].closed && |rest| == 0 {
          forall i | 1 <= i < |ws| ensures ws[i].closed {
            assert ws[i] == ws[1..][i - 1];
          }
        }
      }
      assert AllFit(ws) ==> AllFit(ws[1..]) by {
        if AllFit(ws) {
          forall i | 0 <= i < |ws[1..]| ensures W.SizeFits(ws[1..][i]) {
            assert ws[1..][i] == ws[i + 1];
          }
        }
      }
      (if ws[0].closed then [] else [ws[0]]) + rest
  }

  /** The driver answers for the windows `Survivors` keeps. */
  function SurvivorNatives(ws: seq<W.Window>, natives: seq<Render.NativeResults>): (r: seq<Render.NativeResults>)
    requires |natives| == |ws|
    ensures |r| == |Survivors(ws)|
    decreases |ws|
  {
    if |ws| == 0 then []
    else (if ws[0].closed then [] else [natives[0]]) + SurvivorNatives(ws[1..], natives[1..])
  }

  /** The frames in slot A of the windows of `after` whose applied size differs
      from that of the window at the same place in `before`, in order. */
  function ChangedFrames(before: seq<W.Window>, after: seq<W.Window>): (r: seq<W.Frame>)
    requires |before| == |after|
    ensures |r| <= |after|
    decreases |before|
  {
    if |before| == 0 then []
    else
      (if after[0].lastSize != before[0].lastSize && after[0].nextToRender.Some?
       then [after[0].nextToRender.value] else [])
      + ChangedFrames(before[1..], after[1..])
  }

  /** The handles of the windows of `after` whose applied size changed. */
  function ChangedHandles(before: seq<W.Window>, after: seq<W.Window>): set<W.Handle>
    requires |before| == |after|
    decreases |before|
  {
    if |before| == 0 then {}
    else
      (if after[0].lastSize != before[0].lastSize then {after[0].handle} else {})
      + ChangedHandles(before[1..], after[1..])
  }

  /** Some primary window is still open. */
  predicate PrimaryOpen(ws: seq<W.Window>) {
    exists i :: 0 <= i < |ws| && ws[i].primary && !ws[i].closed
  }

  /** `poll_windows`: every window is polled in turn, closed ones are despawned
      and the others kept in order. The result is the remaining windows, the
      views map and the frames exported. The `i`-th window kept is the `i`-th
      open input polled against its own driver answer; the frames exported are
      the new slot-A frames of the windows whose applied size changed, one per
      such window, in window order. */
  function PollAll(ws: seq<W.Window>, views: W.Views, natives: seq<Render.NativeResults>)
    : (r: (seq<W.Window>, W.Views, seq<W.Frame>))
    requires |natives| == |ws|
    requires AllFit(ws)
    ensures |r.0| == |Survivors(ws)|
    ensures forall i :: 0 <= i < |r.0| ==> W.PolledAs(Survivors(ws)[i], r.0[i], SurvivorNatives(ws, natives)[i])
    ensures r.2 == ChangedFrames(Survivors(ws), r.0)
    ensures forall i :: 0 <= i < |r.0| ==> !r.0[i].closed
    ensures PrimaryOpen(r.0) <==> PrimaryOpen(ws)
    ensures Handles(r.0) <= Handles(ws)
    ensures HandlesDistinct(ws) ==> HandlesDistinct(r.0)
    decreases |ws|
  {
    if |ws| == 0 then ([], views, [])
    else
      assert W.SizeFits(ws[0]);
      match W.Poll(ws[0], views, natives[0])
      case Despawned =>
        var rest := PollAll(ws[1..], views, natives[1..]);
        PrimaryOpenTail(ws);
        SurvivorsDropped(ws, natives);
        rest
      case Kept(w, views', exported) =>
        var rest := PollAll(ws[1..], views', natives[1..]);
        var kept := [w] + rest.0;
        assert kept[1..] == rest.0;
        KeptPrimary(ws, w, rest.0);
        KeptStep(ws, natives, w, exported, rest.0, rest.2);
        (kept, rest.1, (if exported.Some? then [exported.value] else []) + rest.2)
  }

  /** A window that is closed and first leaves a primary window open only if
      the rest does. */
  lemma PrimaryOpenTail(ws: seq<W.Window>)
    requires |ws| > 0 && ws[0].closed
    ensures PrimaryOpen(ws) <==> PrimaryOpen(ws[1..])
  {
    if PrimaryOpen(ws) {
      var i :| 0 <= i < |ws| && ws[i].primary && !ws[i].closed;
      assert ws[1..][i - 1] == ws[i];
    }
    if PrimaryOpen(ws[1..]) {
      var j :| 0 <= j < |ws[1..]| && ws[1..][j].primary && !ws[1..][j].closed;
      assert ws[j + 1] == ws[1..][j];
    }
  }

  /** Keeping the first window with its marker and closed flag, in front of a
      rest with a primary window open exactly when the input's rest has one,
      keeps whether a primary window is open. */
  lemma KeptPrimary(ws: seq<W.Window>, w: W.Window, rest: seq<W.Window>)
    requires |ws| > 0
    requires w.primary == ws[0].primary && w.closed == ws[0].closed
    requires PrimaryOpen(rest) <==> PrimaryOpen(ws[1..])
    ensures PrimaryOpen([w] + rest) <==> PrimaryOpen(ws)
  {
    var kept := [w] + rest;
    if PrimaryOpen(ws) {
      var i :| 0 <= i < |ws| && ws[i].primary && !ws[i].closed;
      if i == 0 {
        assert kept[0] == w;
      } else {
        assert ws[1..][i - 1] == ws[i];
        var j :| 0 <= j < |rest| && rest[j].primary && !rest[j].closed;
        assert kept[j + 1] == rest[j];
      }
    }
    if PrimaryOpen(kept) {
      var i :| 0 <= i < |kept| && kept[i].primary && !kept[i].closed;
      if i == 0 {
        assert ws[0].primary && !ws[0].closed;
      } else {
        assert kept[i] == rest[i - 1];
        var j :| 0 <= j < |ws[1..]| && ws[1..][j].primary && !ws[1..][j].closed;
        assert ws[j + 1] == ws[1..][j];
      }
    }
  }

  /** The step of `PollAll` at an open first window: prefixing that window's
      poll to the poll of the rest keeps the result pointwise the poll of the
      survivors, with the exports those of the changed sizes. */
  lemma KeptStep(ws: seq<W.Window>, natives: seq<Render.NativeResults>, w: W.Window,
                 exported: Option<W.Frame>, rest: seq<W.Window>, restFrames: seq<W.Frame>)
    requires |natives| == |ws| && |ws| > 0 && !ws[0].closed && AllFit(ws)
    requires W.PolledAs(ws[0], w, natives[0])
    requires exported.Some? <==> w.lastSize != ws[0].lastSize
    requires exported.Some? ==> w.nextToRender == exported
    requires |rest| == |Survivors(ws[1..])|
    requires forall i :: 0 <= i < |rest| ==>
               W.PolledAs(Survivors(ws[1..])[i], rest[i], SurvivorNatives(ws[1..], natives[1..])[i])
    requires restFrames == ChangedFrames(Survivors(ws[1..]), rest)
    ensures |[w] + rest| == |Survivors(ws)|
    ensures forall i :: 0 <= i < |[w] + rest| ==>
              W.PolledAs(Survivors(ws)[i], ([w] + rest)[i], SurvivorNatives(ws, natives)[i])
    ensures (if exported.Some? then [exported.value] else []) + restFrames
            == ChangedFrames(Survivors(ws), [w] + rest)
  {
    SurvivorsKept(ws, natives);
    var kept := [w] + rest;
    assert kept[1..] == rest;
    forall i | 0 <= i < |kept|
      ensures W.PolledAs(Survivors(ws)[i], kept[i], SurvivorNatives(ws, natives)[i])
    {
      if i > 0 {
        assert kept[i] == rest[i - 1];
      }
    }
  }

  /** Unfolding `Survivors` and `SurvivorNatives` at a closed first window. */
  lemma SurvivorsDropped(ws: seq<W.Window>, natives: seq<Render.NativeResults>)
    requires |natives| == |ws| && |ws| > 0 && ws[0].closed
    ensures Survivors(ws) == Survivors(ws[1..])
    ensures SurvivorNatives(ws, natives) == SurvivorNatives(ws[1..], natives[1..])
  {
  }

  /** Unfolding `Survivors` and `SurvivorNatives` at an open first window. */
  lemma SurvivorsKept(ws: seq<W.Window>, natives: seq<Render.NativeResults>)
    requires |natives| == |ws| && |ws| > 0 && !ws[0].closed
    ensures Survivors(ws) == [ws[0]] + Survivors(ws[1..])
    ensures SurvivorNatives(ws, natives) == [natives[0]] + SurvivorNatives(ws[1..], natives[1..])
    ensures Survivors(ws)[1..] == Survivors(ws[1..])
  {
  }

  /** Polling leaves the view of any handle no polled window owns alone. */
  lemma {:induction false} PollAllKeepsOtherViews(ws: seq<W.Window>, views: W.Views, natives: seq<Render.NativeResults>, h: W.Handle)
    requires |natives| == |ws| && AllFit(ws)
    requires h !in Handles(ws)
    ensures var r := PollAll(ws, views, natives);
            (h in r.1 <==> h in views) && (h in views ==> r.1[h] == views[h])
    decreases |ws|
  {
    if |ws| > 0 {
      assert W.SizeFits(ws[0]);
      match W.Poll(ws[0], views, natives[0])
      case Despawned =>
        PollAllKeepsOtherViews(ws[1..], views, natives[1..], h);
      case Kept(w, views', exported) =>
        PollAllKeepsOtherViews(ws[1..], views', natives[1..], h);
    }
  }

  /** The views map after a poll: the entries of the windows whose applied
      size changed are added or replaced, and every other entry is kept. */
  lemma {:induction false} PollAllViews(ws: seq<W.Window>, views: W.Views, natives: seq<Render.NativeResults>)
    requires |natives| == |ws| && AllFit(ws)
    ensures var r := PollAll(ws, views, natives);
            var changed := ChangedHandles(Survivors(ws), r.0);
            && r.1.Keys == views.Keys + changed
            && forall h :: h in views && h !in changed ==> r.1[h] == views[h]
    decreases |ws|
  {
    if |ws| > 0 {
      assert W.SizeFits(ws[0]);
      assert AllFit(ws[1..]) by {
        forall i | 0 <= i < |ws[1..]| ensures W.SizeFits(ws[1..][i]) {
          assert ws[1..][i] == ws[i + 1];
        }
      }
      match W.Poll(ws[0], views, natives[0])
      case Despawned =>
        PollAllViews(ws[1..], views, natives[1..]);
        SurvivorsDropped(ws, natives);
      case Kept(w, views', exported) =>
        PollAllViews(ws[1..], views', natives[1..]);
        SurvivorsKept(ws, natives);
        var rest := PollAll(ws[1..], views', natives[1..]);
        assert ([w] + rest.0)[1..] == rest.0;
    }
  }

  /** A window's own poll makes it current; the change it makes to the views
      map touches only its own handle. */
  lemma PollMakesCurrent(w: W.Window, views: W.Views, native: Render.NativeResults)
    requires W.SizeFits(w) && Current(w, views)
    ensures var p := W.Poll(w, views, native);
            p.Kept? ==> Current(p.window, p.views)
  {
  }

  lemma {:induction false} PollAllKeepsCurrent(ws: seq<W.Window>, views: W.Views, natives: seq<Render.NativeResults>)
    requires |natives| == |ws| && AllFit(ws)
    requires HandlesDistinct(ws) && AllCurrent(ws, views)
    ensures var r := PollAll(ws, views, natives);
            AllCurrent(r.0, r.1) && AllFit(r.0)
    decreases |ws|
  {
    if |ws| > 0 {
      assert W.SizeFits(ws[0]);
      assert AllCurrent(ws[1..], views) by {
        forall i | 0 <= i < |ws[1..]| ensures Current(ws[1..][i], views) {
          assert ws[1..][i] == ws[i + 1];
        }
      }
      assert AllFit(ws[1..]) by {
        forall i | 0 <= i < |ws[1..]| ensures W.SizeFits(ws[1..][i]) {
          assert ws[1..][i] == ws[i + 1];
        }
      }
      match W.Poll(ws[0], views, natives[0])
      case Despawned =>
        PollAllKeepsCurrent(ws[1..], views, natives[1..]);
      case Kept(w, views', exported) =>
        assert Current(ws[0], views);
        PollMakesCurrent(ws[0], views, natives[0]);
        assert AllCurrent(ws[1..], views') by {
          forall i | 0 <= i < |ws[1..]| ensures Current(ws[1..][i], views') {
            assert ws[1..][i] == ws[i + 1];
            assert ws[i + 1].handle in Handles(ws[1..]) by {
              HandleOf(ws[1..], i);
            }
            assert Current(ws[i + 1], views);
          }
        }
        PollAllKeepsCurrent(ws[1..], views', natives[1..]);
        var rest := PollAll(ws[1..], views', natives[1..]);
        PollAllKeepsOtherViews(ws[1..], views', natives[1..], ws[0].handle);
        assert Current(w, rest.1);
        var kept := [w] + rest.0;
        assert AllCurrent(kept, rest.1) by {
          forall i | 0 <= i < |kept| ensures Current(kept[i], rest.1) {
            if i > 0 {
              assert kept[i] == rest.0[i - 1];
            }
          }
        }
        assert AllFit(kept) by {
          forall i | 0 <= i < |kept| ensures W.SizeFits(kept[i]) {
            if i > 0 {
              assert kept[i] == rest.0[i - 1];
            }
          }
        }
    }
  }

  lemma {:induction false} HandleOf(ws: seq<W.Window>, i: nat)
    requires i < |ws|
    ensures ws[i].handle in Handles(ws)
    decreases i
  {
    if i > 0 {
      HandleOf(ws[1..], i - 1);
    }
  }

  /** Polling moves no frame other than the ones it exports. */
  lemma {:induction false} PollAllNoFabrication(ws: seq<W.Window>, views: W.Views, natives: seq<Render.NativeResults>)
    requires |natives| == |ws| && AllFit(ws)
    ensures var r := PollAll(ws, views, natives);
            AllFrames(r.0) <= AllFrames(ws) + set f | f in r.2
    decreases |ws|
  {
    if |ws| > 0 {
      assert W.SizeFits(ws[0]);
      match W.Poll(ws[0], views, natives[0])
      case Despawned =>
        PollAllNoFabrication(ws[1..], views, natives[1..]);
      case Kept(w, views', exported) =>
        PollAllNoFabrication(ws[1..], views', natives[1..]);
        var rest := PollAll(ws[1..], views', natives[1..]);
        assert ([w] + rest.0)[1..] == rest.0;
    }
  }

  // ---------------------------------------------------------------------------
  // A render pass over all windows, and the UI thread's side

  /** One render pass: extraction, send and put-back for every window. */
  function RenderPass(ws: seq<W.Window>): (r: seq<W.Window>)
    ensures |r| == |ws|
    ensures forall i :: 0 <= i < |ws| ==> r[i] == Relay.Pass(ws[i])
  {
    seq(|ws|, i requires 0 <= i < |ws| => Relay.Pass(ws[i]))
  }

  lemma {:induction false} RenderPassNoFabrication(ws: seq<W.Window>)
    ensures AllFrames(RenderPass(ws)) <= AllFrames(ws)
    decreases |ws|
  {
    if |ws| > 0 {
      Relay.PassNoFabrication(ws[0]);
      RenderPassNoFabrication(ws[1..]);
      assert RenderPass(ws)[1..] == RenderPass(ws[1..]);
    }
  }

  /** The UI thread takes the frame in slot B of window `i`. */
  function Present(ws: seq<W.Window>, i: nat): (r: (Option<W.Frame>, seq<W.Window>))
    requires i < |ws|
    ensures r.0 == ws[i].sharedNextFrame
    ensures r.1 == ws[i := ws[i].(sharedNextFrame := None)]
  {
    var (taken, rest) := FrameSlot.Take(ws[i].sharedNextFrame);
    (taken, ws[i := ws[i].(sharedNextFrame := rest)])
  }

  // ---------------------------------------------------------------------------
  // Runs of steps

  datatype Step =
    | OpenStep(handle: W.Handle, primary: bool)
    | ReportStep(index: nat, report: W.Report)
    | CloseStep(index: nat)
    | PollStep(natives: seq<Render.NativeResults>)
    | RenderStep
    | PresentStep(index: nat)

  /** When a step can be taken: an open draws an unused handle, the UI thread
      addresses an existing window and reports sizes that fit, and the poll
      has one driver answer per window. */
  predicate Enabled(world: World, s: Step) {
    match s
    case OpenStep(h, _) => h !in world.views && h !in Handles(world.windows)
    case ReportStep(i, rep) => i < |world.windows| && W.ReportFits(rep)
    case CloseStep(i) => i < |world.windows|
    case PollStep(natives) => |natives| == |world.windows| && AllFit(world.windows)
    case RenderStep => true
    case PresentStep(i) => i < |world.windows|
  }

  /** The world after a step, and the frames the step exported. */
  function Apply(world: World, s: Step): (World, seq<W.Frame>)
    requires Enabled(world, s)
  {
    match s
    case OpenStep(h, primary) => (OpenWith(world, h, primary), [])
    case ReportStep(i, rep) =>
      (world.(windows := world.windows[i := W.WithReport(world.windows[i], rep)]), [])
    case CloseStep(i) =>
      (world.(windows := world.windows[i := world.windows[i].(closed := true)]), [])
    case PollStep(natives) =>
      var r := PollAll(world.windows, world.views, natives);
      (World(r.0, r.1), r.2)
    case RenderStep => (world.(windows := RenderPass(world.windows)), [])
    case PresentStep(i) => (world.(windows := Present(world.windows, i).1), [])
  }

  predicate Runnable(world: World, steps: seq<Step>)
    decreases |steps|
  {
    |steps| == 0 || (Enabled(world, steps[0]) && Runnable(Apply(world, steps[0]).0, steps[1..]))
  }

  function Run(world: World, steps: seq<Step>): (World, seq<W.Frame>)
    requires Runnable(world, steps)
    decreases |steps|
  {
    if |steps| == 0 then (world, [])
    else
      var (next, exported) := Apply(world, steps[0]);
      var (last, later) := Run(next, steps[1..]);
      (last, exported + later)
  }

  /** The world's slots hold no frame that was neither there before nor
      exported by the step. */
  predicate NoFabrication(before: World, after: World, exported: seq<W.Frame>) {
    AllFrames(after.windows) <= AllFrames(before.windows) + set f | f in exported
  }

  /** Replacing one window by one with the same handle, applied size and slot A,
      which still fits and holds no new frame, keeps the invariant. This covers
      the UI thread's reports, its closing a window and its taking a frame. */
  lemma UpdateKeepsInv(world: World, i: nat, w: W.Window)
    requires Inv(world) && i < |world.windows|
    requires w.handle == world.windows[i].handle
    requires w.lastSize == world.windows[i].lastSize
    requires w.nextToRender == world.windows[i].nextToRender
    requires W.SizeFits(w)
    requires Relay.Frames(w) <= Relay.Frames(world.windows[i])
    ensures Inv(world.(windows := world.windows[i := w]))
    ensures NoFabrication(world, world.(windows := world.windows[i := w]), [])
  {
    var ws := world.windows;
    var ws' := ws[i := w];
    SameHandles(ws, ws');
    AllFramesUpdate(ws, i, w);
    AllFramesMember(ws, i);
    assert AllCurrent(ws', world.views) by {
      forall j | 0 <= j < |ws'| ensures Current(ws'[j], world.views) {
        assert Current(ws[j], world.views);
      }
    }
  }

  lemma OpenKeepsInv(world: World, h: W.Handle, primary: bool)
    requires Inv(world) && h !in Handles(world.windows)
    ensures Inv(OpenWith(world, h, primary))
    ensures NoFabrication(world, OpenWith(world, h, primary), [])
  {
    var ws := world.windows;
    HandlesAppend(ws, W.Opened(h, primary));
    var ws' := ws + [W.Opened(h, primary)];
    assert AllCurrent(ws', world.views) by {
      forall i | 0 <= i < |ws'| ensures Current(ws'[i], world.views) {
        if i < |ws| {
          assert ws'[i] == ws[i];
        }
      }
    }
    AllFramesAppendEmpty(ws, W.Opened(h, primary));
  }

  lemma RenderKeepsInv(world: World)
    requires Inv(world)
    ensures Inv(world.(windows := RenderPass(world.windows)))
    ensures NoFabrication(world, world.(windows := RenderPass(world.windows)), [])
  {
    var ws := world.windows;
    var ws' := RenderPass(ws);
    SameHandles(ws, ws');
    RenderPassNoFabrication(ws);
    assert AllCurrent(ws', world.views) by {
      forall i | 0 <= i < |ws'| ensures Current(ws'[i], world.views) {
        assert Current(ws[i], world.views);
      }
    }
    assert AllFit(ws') by {
      forall i | 0 <= i < |ws'| ensures W.SizeFits(ws'[i]) {
        assert W.SizeFits(ws[i]);
      }
    }
  }

  /** Every step keeps the invariant and fabricates no frame. */
  lemma StepKeepsInv(world: World, s: Step)
    requires Inv(world) && Enabled(world, s)
    ensures Inv(Apply(world, s).0)
    ensures NoFabrication(world, Apply(world, s).0, Apply(world, s).1)
  {
    var ws := world.windows;
    match s
    case OpenStep(h, primary) =>
      OpenKeepsInv(world, h, primary);
    case ReportStep(i, rep) =>
      UpdateKeepsInv(world, i, W.WithReport(ws[i], rep));
    case CloseStep(i) =>
      UpdateKeepsInv(world, i, ws[i].(closed := true));
    case PollStep(natives) =>
      PollAllKeepsCurrent(ws, world.views, natives);
      PollAllNoFabrication(ws, world.views, natives);
    case RenderStep =>
      RenderKeepsInv(world);
    case PresentStep(i) =>
      UpdateKeepsInv(world, i, Present(ws, i).1[i]);
  }

  lemma {:induction false} AllFramesAppendEmpty(ws: seq<W.Window>, w: W.Window)
    requires Relay.Frames(w) == {}
    ensures AllFrames(ws + [w]) == AllFrames(ws)
    decreases |ws|
  {
    if |ws| > 0 {
      assert (ws + [w])[1..] == ws[1..] + [w];
      AllFramesAppendEmpty(ws[1..], w);
    } else {
      assert [w][1..] == [];
    }
  }

  /** Every run of steps from a world satisfying the invariant keeps it: open
      windows never share a handle, every window's camera renders into a view
      of the size last applied, and slot A only ever holds the installed
      export. And no frame is fabricated: every frame in any slot at the end
      was there at the start or was exported during the run. */
  lemma {:induction false} RunKeepsInv(world: World, steps: seq<Step>)
    requires Inv(world) && Runnable(world, steps)
    ensures Inv(Run(world, steps).0)
    ensures NoFabrication(world, Run(world, steps).0, Run(world, steps).1)
    decreases |steps|
  {
    if |steps| > 0 {
      StepKeepsInv(world, steps[0]);
      var (next, exported) := Apply(world, steps[0]);
      RunKeepsInv(next, steps[1..]);
    }
  }

  /** The world before any window is opened. */
  const EMPTY: World := World([], map[])

  lemma EmptyInv()
    ensures Inv(EMPTY)
  {
  }

  /** End to end: a window that reports 640x480 at scale 1 gets one export of a
      640x480 frame, the next render pass delivers it to slot B, and the UI
      thread can take it exactly once. */
  lemma EndToEnd(h: W.Handle, native: Render.NativeResults)
    ensures var w0 := OpenWith(EMPTY, h, true);
            var w1 := w0.(windows := w0.windows[0 := W.WithReport(w0.windows[0], W.Report(640, 480, 1))]);
            var p := PollAll(w1.windows, w1.views, [native]);
            var ws := RenderPass(p.0);
            var first := Present(ws, 0);
            var second := Present(first.1, 0);
            && |p.2| == 1
            && p.2[0].dmabuf.size == UVec2(640, 480)
            && first.0 == Some(p.2[0])
            && second.0 == None
  {
    var w0 := OpenWith(EMPTY, h, true);
    var win := W.WithReport(w0.windows[0], W.Report(640, 480, 1));
    var polled := W.Poll(win, map[], native);
    assert polled.Kept? && polled.exported.Some?;
    assert [win][1..] == [];
    var p := PollAll([win], map[], [native]);
    assert p.0 == [polled.window];
  }

  // ---------------------------------------------------------------------------
  // Exit conditions

  /** Bevy's `ExitCondition`. */
  datatype ExitCondition = OnPrimaryClosed | OnAllClosed | DontExit

  /** `exit_on_primary_closed` and `exit_on_all_closed`: whether the app is
      asked to exit, judged on the windows left after the poll despawned the
      closed ones. `OnPrimaryClosed` fires exactly when no window carries the
      primary marker, `OnAllClosed` exactly when no window is left (and so only
      when no primary window is left either), and `DontExit` never fires. */
  function ExitRequested(cond: ExitCondition, ws: seq<W.Window>): (r: bool)
    ensures cond == DontExit ==> !r
    ensures cond == OnPrimaryClosed ==> (r <==> Cameras.FirstPrimary(ws).None?)
    ensures cond == OnAllClosed ==> (r <==> |ws| == 0)
    ensures cond == OnAllClosed && r ==> Cameras.FirstPrimary(ws).None?
  {
    Cameras.NoPrimaryMarker(ws);
    match cond
    case OnPrimaryClosed => forall i :: 0 <= i < |ws| ==> !ws[i].primary
    case OnAllClosed => |ws| == 0
    case DontExit => false
  }

  /** After a poll, `OnAllClosed` exits exactly when every window had its
      closed flag set, and `OnPrimaryClosed` exactly when no primary window is
      still open. */
  lemma ExitAfterPoll(ws: seq<W.Window>, views: W.Views, natives: seq<Render.NativeResults>)
    requires |natives| == |ws| && AllFit(ws)
    ensures var r := PollAll(ws, views, natives);
            && (ExitRequested(OnAllClosed, r.0) <==> forall i :: 0 <= i < |ws| ==> ws[i].closed)
            && (ExitRequested(OnPrimaryClosed, r.0) <==> !PrimaryOpen(ws))
  {
  }

  /** In a run: with one primary window, a poll leaves an `OnPrimaryClosed`
      app running while that window is open, and asks it to exit once the UI
      thread has closed the window and the next poll has run. */
  lemma PrimaryCloseThenPollExits(world: World, i: nat, natives: seq<Render.NativeResults>)
    requires Inv(world) && i < |world.windows| && |natives| == |world.windows|
    requires world.windows[i].primary && !world.windows[i].closed
    requires forall j :: 0 <= j < |world.windows| && j != i ==> !world.windows[j].primary
    ensures Enabled(world, PollStep(natives))
    ensures !ExitRequested(OnPrimaryClosed, Apply(world, PollStep(natives)).0.windows)
    ensures var closed := Apply(world, CloseStep(i)).0;
            && Enabled(closed, PollStep(natives))
            && ExitRequested(OnPrimaryClosed, Apply(closed, PollStep(natives)).0.windows)
  {
    var closed := Apply(world, CloseStep(i)).0;
    assert AllFit(closed.windows) by {
      forall j | 0 <= j < |closed.windows| ensures W.SizeFits(closed.windows[j]) {
        assert W.SizeFits(world.windows[j]);
      }
    }
    assert !PrimaryOpen(closed.windows) by {
      forall j | 0 <= j < |closed.windows| && closed.windows[j].primary ensures closed.windows[j].closed {
        assert j == i;
      }
    }
    var r := PollAll(closed.windows, closed.views, natives);
    assert !PrimaryOpen(r.0);
  }
}

=== FILE: cameras.dfy ===
/** Camera retargeting (`src/lib.rs`): cameras that target the primary window
    are pointed at the primary Adwaita window's manual texture view instead,
    both when a camera is inserted and when the primary marker is inserted. */
module Cameras {
  import opened Common
  import W = Window

  /** Bevy's `WindowRef`. */
  datatype WindowRef = Primary | Entity(id: nat)

  /** Bevy's `RenderTarget`. */
  datatype RenderTarget =
    | WindowTarget(window: WindowRef)
    | Image(id: nat)
    | TextureView(handle: W.Handle)

  /** `AdwaitaWindow::render_target`: the window's manual texture view, named
      by its handle, never a window reference, so a retargeted camera is not
      retargeted again. */
  function TargetOf(w: W.Window): (r: RenderTarget)
    ensures r.TextureView? && r.handle == w.handle
  {
    TextureView(w.handle)
  }

  /** Only a camera aimed at `Window(Primary)` is redirected. */
  function Retarget(target: RenderTarget, w: W.Window): RenderTarget {
    if target == WindowTarget(Primary) then TargetOf(w) else target
  }

  /** The number of windows carrying the primary marker. */
  function PrimaryCount(ws: seq<W.Window>): nat
    decreases |ws|
  {
    if |ws| == 0 then 0 else (if ws[0].primary then 1 else 0) + PrimaryCount(ws[1..])
  }

  /** No window carries the primary marker exactly when the count is zero. */
  lemma {:induction false} NoPrimaryMarker(ws: seq<W.Window>)
    ensures PrimaryCount(ws) == 0 <==> forall i :: 0 <= i < |ws| ==> !ws[i].primary
    decreases |ws|
  {
    if |ws| > 0 {
      NoPrimaryMarker(ws[1..]);
      assert forall i :: 1 <= i < |ws| ==> ws[i] == ws[1..][i - 1];
    }
  }

  /** The first window carrying the primary marker, if any. */
  function FirstPrimary(ws: seq<W.Window>): (r: Option<W.Window>)
    ensures r.Some? <==> PrimaryCount(ws) > 0
    ensures r.Some? ==> r.value.primary && r.value in ws
    decreases |ws|
  {
    if |ws| == 0 then None
    else if ws[0].primary then Some(ws[0])
    else FirstPrimary(ws[1..])
  }

  /** `Query::get_single` on the primary windows: succeeds exactly when there is
      one primary window, and yields it. */
  function SinglePrimary(ws: seq<W.Window>): (r: Option<W.Window>)
    ensures r.Some? <==> PrimaryCount(ws) == 1
    ensures r.Some? ==> r.value.primary && r.value in ws
  {
    if PrimaryCount(ws) == 1 then FirstPrimary(ws) else None
  }

  /** `update_default_camera_render_target`: a newly inserted camera aimed at
      the primary window is redirected to the single primary Adwaita window's
      texture view; with no primary window, or more than one, it is left alone,
      and a camera aimed elsewhere is always left alone. */
  function OnCameraInserted(target: RenderTarget, ws: seq<W.Window>): (r: RenderTarget)
    ensures r != target <==> target == WindowTarget(Primary) && PrimaryCount(ws) == 1
    ensures r != target ==> exists i :: 0 <= i < |ws| && ws[i].primary && r == TextureView(ws[i].handle)
  {
    match SinglePrimary(ws)
    case None => target
    case Some(p) => Retarget(target, p)
  }

  /** `update_existing_cameras_render_target`: when `w` becomes the primary
      window, every camera aimed at the primary window is redirected to `w`'s
      texture view and every other camera keeps its target. */
  function OnPrimaryInserted(cameras: seq<RenderTarget>, w: W.Window): (r: seq<RenderTarget>)
    ensures |r| == |cameras|
    ensures forall i :: 0 <= i < |r| ==> r[i] != WindowTarget(Primary)
    ensures forall i :: 0 <= i < |r| && cameras[i] != WindowTarget(Primary) ==> r[i] == cameras[i]
    ensures forall i :: 0 <= i < |r| && cameras[i] == WindowTarget(Primary) ==> r[i] == TargetOf(w)
  {
    seq(|cameras|, i requires 0 <= i < |cameras| => Retarget(cameras[i], w))
  }

  /** The two retargeting systems agree: with `p` the single primary window, a
      camera inserted now gets the target it would have got had it existed
      when `p` became primary. */
  lemma InsertedAgreesWithExisting(target: RenderTarget, ws: seq<W.Window>, p: W.Window)
    requires SinglePrimary(ws) == Some(p)
    ensures OnCameraInserted(target, ws) == OnPrimaryInserted([target], p)[0]
  {
  }

  /** Inserting a camera's target again changes nothing. */
  lemma InsertedIdempotent(target: RenderTarget, ws: seq<W.Window>)
    ensures OnCameraInserted(OnCameraInserted(target, ws), ws) == OnCameraInserted(target, ws)
  {
  }

  /** A camera already retargeted when a window became primary is left alone
      by the insertion system, whatever the windows are. */
  lemma RetargetedCameraKept(cameras: seq<RenderTarget>, w: W.Window, ws: seq<W.Window>)
    ensures forall i :: 0 <= i < |cameras| ==>
              OnCameraInserted(OnPrimaryInserted(cameras, w)[i], ws) == OnPrimaryInserted(cameras, w)[i]
  {
  }

  /** Once the cameras are retargeted, a later primary window leaves them as
      they are: retargeting is idempotent, whichever window triggers it. */
  lemma RetargetIdempotent(cameras: seq<RenderTarget>, w: W.Window, later: W.Window)
    ensures OnPrimaryInserted(OnPrimaryInserted(cameras, w), later) == OnPrimaryInserted(cameras, w)
  {
  }
}

=== FILE: common.dfy ===
/** Machine-integer ranges and the small value types shared by the render-target
    exporter and the window bridge. */
module Common {

  /** One past the largest `u32`. */
  const U32_END: int := 0x1_0000_0000

  /** Rust `i32`: the type of the size and scale atomics the UI thread writes. */
  type int32 = x: int | -0x8000_0000 <= x < 0x8000_0000

  /** Rust `u32`. */
  type uint32 = x: int | 0 <= x < 0x1_0000_0000

  /** Bevy's `UVec2`: a pair of `u32`, used for pixel sizes. */
  datatype UVec2 = UVec2(x: uint32, y: uint32)

  /** Rust's `Option`. */
  datatype Option<+T> = None | Some(value: T)

  /** `u32::try_from` on an `i32`: the conversion fails exactly on negative values. */
  function TryU32(x: int32): (r: Option<uint32>)
    ensures r.Some? <==> 0 <= x
    ensures r.Some? ==> r.value == x
  {
    if x < 0 then None else Some(x)
  }

  function Max(a: int, b: int): int {
    if a < b then b else a
  }
}

=== FILE: fourcc.dfy ===
/** DRM four-character format codes, as built by the `fourcc_code` macro of the
    Linux uapi header `include/uapi/drm/drm_fourcc.h`: the four characters
    packed little-endian into a 32-bit word, the first in the lowest byte. */
module Fourcc {
  import opened Common

  type byte = x: int | 0 <= x < 0x100

  /** `fourcc_code(a, b, c, d)` = `a | b << 8 | c << 16 | d << 24`. The bytes
      occupy disjoint bit ranges, so the ors are sums of shifted bytes. */
  function Code(a: byte, b: byte, c: byte, d: byte): uint32 {
    a + 0x100 * b + 0x1_0000 * c + 0x100_0000 * d
  }

  /** The four characters of a code, lowest byte first. */
  function Chars(code: uint32): (byte, byte, byte, byte)
  {
    var q1 := code / 0x100;
    var q2 := q1 / 0x100;
    (code % 0x100, q1 % 0x100, q2 % 0x100, q2 / 0x100)
  }

  /** Shifting a byte up by eight bits and adding a byte is undone by
      Euclidean division by 0x100. */
  lemma SplitLowByte(lo: byte, hi: nat)
    ensures (lo + 0x100 * hi) % 0x100 == lo
    ensures (lo + 0x100 * hi) / 0x100 == hi
  {
  }

  /** Decoding a packed code gives back the four characters. */
  lemma CharsOfCode(a: byte, b: byte, c: byte, d: byte)
    ensures Chars(Code(a, b, c, d)) == (a, b, c, d)
  {
    var k2 := c + 0x100 * d;
    var k1 := b + 0x100 * k2;
    assert Code(a, b, c, d) == a + 0x100 * k1;
    SplitLowByte(a, k1);
    SplitLowByte(b, k2);
    SplitLowByte(c, d);
  }

  /** Every 32-bit word is the packing of its own four characters, so the
      packing is a bijection between 32-bit words and byte quadruples. */
  lemma CodeOfChars(code: uint32)
    ensures var (a, b, c, d) := Chars(code); Code(a, b, c, d) == code
  {
  }

  /** `DRM_FORMAT_RGBA8888`, whose fourcc is "RA24". */
  const RGBA8888: uint32 := Code('R' as int, 'A' as int, '2' as int, '4' as int)

  /** The constant the external surface builder passes is the "RA24" code. */
  lemma RGBA8888Value()
    ensures RGBA8888 == 0x34324152
    ensures Chars(0x34324152) == ('R' as int, 'A' as int, '2' as int, '4' as int)
  {
  }
}

=== FILE: frame_slot.dfy ===
/** A Frame Slot: the one-place, overwrite-on-write cell (`AtomicOptionBox`) that
    carries a pending frame from one phase to the next. `Store` overwrites,
    `Take` swaps the content with `None`. */
module FrameSlot {
  import opened Common

  /** Storing replaces whatever the slot held: whatever was there before, the
      next take hands out the value just stored. */
  function Store<T>(slot: Option<T>, v: T): (r: Option<T>)
    ensures Take(r).0 == Some(v)
  {
    Some(v)
  }

  /** Taking hands out the content and leaves the slot empty, so a second take
      right after it finds nothing. */
  function Take<T>(slot: Option<T>): (r: (Option<T>, Option<T>))
    ensures r.0 == slot && r.1.None?
  {
    (slot, None)
  }

  /** Stores every value of `vs` in order, with no take in between. */
  function StoreAll<T>(slot: Option<T>, vs: seq<T>): Option<T>
    decreases |vs|
  {
    if |vs| == 0 then slot else StoreAll(Store(slot, vs[0]), vs[1..])
  }

  /** After a run of stores with no intervening take, the next take observes
      exactly the most recently stored value and nothing earlier. */
  lemma {:induction false} LastStoreWins<T>(slot: Option<T>, vs: seq<T>)
    requires |vs| > 0
    ensures Take(StoreAll(slot, vs)).0 == Some(vs[|vs| - 1])
    decreases |vs|
  {
    if |vs| > 1 {
      LastStoreWins(Store(slot, vs[0]), vs[1..]);
    }
  }

  /** A take on an empty slot reports empty and leaves the slot empty. */
  lemma TakeEmpty<T>(slot: Option<T>)
    requires slot.None?
    ensures Take(slot) == (None, None)
  {
  }
}

=== FILE: relay.dfy ===
/** The render-app side of the frame relay (`src/lib.rs`): extraction takes the
    frame in slot A into a render-world `RenderWindow`, the post-render send
    moves it into slot B, and the end-of-frame put-back returns a frame that was
    not sent to slot A. Each phase is a transition on one window's two slots
    and its carrier; a pass runs them in their fixed order. */
module Relay {
  import opened Common
  import FrameSlot
  import W = Window

  /** The render-world `RenderWindow`: it shares the window's two slots and
      carries `next_frame_to_send`. */
  datatype RenderWindow = RenderWindow(nextToSend: Option<W.Frame>)

  /** The frame a possibly absent carrier holds. */
  function Carried(rw: Option<RenderWindow>): Option<W.Frame> {
    if rw.Some? then rw.value.nextToSend else None
  }

  /** The frames held in a window's two slots. */
  function Frames(w: W.Window): set<W.Frame> {
    (if w.nextToRender.Some? then {w.nextToRender.value} else {})
    + (if w.sharedNextFrame.Some? then {w.sharedNextFrame.value} else {})
  }

  /** `extract_windows` for one window: a carrier is created exactly when slot A
      holds a frame, it carries that frame, and slot A is left empty. */
  function Extract(w: W.Window): (r: (W.Window, Option<RenderWindow>))
    ensures r.1.Some? <==> w.nextToRender.Some?
    ensures Carried(r.1) == w.nextToRender
    ensures r.0 == w.(nextToRender := None)
  {
    var (taken, rest) := FrameSlot.Take(w.nextToRender);
    match taken
    case None => (w, None)
    case Some(f) => (w.(nextToRender := rest), Some(RenderWindow(Some(f))))
  }

  /** `send_frame_to_windows` for one window: a carried frame overwrites slot B
      and the carrier is left empty; without a carried frame nothing changes. */
  function Send(w: W.Window, rw: Option<RenderWindow>): (r: (W.Window, Option<RenderWindow>))
    ensures r.1.Some? <==> rw.Some?
    ensures Carried(r.1).None?
    ensures Carried(rw).Some? ==> r.0 == w.(sharedNextFrame := Carried(rw))
    ensures Carried(rw).None? ==> r.0 == w
  {
    match rw
    case None => (w, None)
    case Some(carrier) =>
      var (taken, rest) := FrameSlot.Take(carrier.nextToSend);
      match taken
      case None => (w, Some(carrier))
      case Some(f) => (w.(sharedNextFrame := FrameSlot.Store(w.sharedNextFrame, f)), Some(RenderWindow(rest)))
  }

  /** `put_back_next_frame_if_not_sent` for one window: a frame still carried
      is stored back into slot A; otherwise nothing changes. It never puts a
      frame anywhere that was not carried. */
  function PutBack(w: W.Window, rw: Option<RenderWindow>): (r: (W.Window, Option<RenderWindow>))
    ensures r.1.Some? <==> rw.Some?
    ensures Carried(r.1).None?
    ensures Carried(rw).Some? ==> r.0 == w.(nextToRender := Carried(rw))
    ensures Carried(rw).None? ==> r.0 == w
  {
    match rw
    case None => (w, None)
    case Some(carrier) =>
      var (taken, rest) := FrameSlot.Take(carrier.nextToSend);
      match taken
      case None => (w, Some(carrier))
      case Some(f) => (w.(nextToRender := FrameSlot.Store(w.nextToRender, f)), Some(RenderWindow(rest)))
  }

  /** One render pass for one window: extract, (render,) send, put back. A
      frame taken from slot A ends the pass in slot B, and slot A is empty;
      with slot A empty the pass changes nothing. Either way only the slots
      move: every other field of the window is untouched. */
  function Pass(w: W.Window): (r: W.Window)
    ensures w.nextToRender.Some? ==> r == w.(nextToRender := None, sharedNextFrame := w.nextToRender)
    ensures w.nextToRender.None? ==> r == w
  {
    var (w1, rw1) := Extract(w);
    var (w2, rw2) := Send(w1, rw1);
    PutBack(w2, rw2).0
  }

  /** A pass never fabricates a frame: whatever is in the slots afterwards was
      in them before. */
  lemma PassNoFabrication(w: W.Window)
    ensures Frames(Pass(w)) <= Frames(w)
  {
  }

  /** After a send, the put-back finds nothing to return. */
  lemma PutBackAfterSendIsNoop(w: W.Window, rw: Option<RenderWindow>)
    ensures var (w1, rw1) := Send(w, rw); PutBack(w1, rw1) == (w1, rw1)
  {
  }

  /** No loss: if the send phase does not run for a carried frame, the
      put-back returns it to slot A, so the window is as it was before the
      extraction. */
  lemma UnsentFrameIsPutBack(w: W.Window)
    ensures var (w1, rw1) := Extract(w); PutBack(w1, rw1).0 == w
  {
  }

  /** Observed behaviour, not a guarantee: the put-back stores, so if the main
      app's poll stores a newer frame into slot A while an older one is still
      carried and unsent, the put-back replaces the newer frame with the older. */
  lemma PutBackCanReplaceNewerFrame(w: W.Window, newer: W.Frame)
    requires w.nextToRender.Some? && w.nextToRender.value != newer
    ensures var (w1, rw1) := Extract(w);
            var polled := w1.(nextToRender := Some(newer));
            PutBack(polled, rw1).0.nextToRender == w.nextToRender
  {
  }
}

=== FILE: render.dfy ===
/** The render-target exporter and the external surface description
    (`src/render.rs`). The Vulkan, wgpu-hal and wgpu calls themselves are
    foreign; what is modelled is every descriptor the exporter fills in and the
    record of values the surface builder passes on. What the driver returns
    (image, memory requirement, memory, fd, texture view) is an oracle input. */
module Render {
  import opened Common
  import Vulkan
  import Wgpu
  import WgpuHal
  import Conv
  import Fourcc

  /** `TEXTURE_FORMAT`: the colour format of every render target. */
  const TEXTURE_FORMAT: Wgpu.TextureFormat := Wgpu.Rgba8UnormSrgb

  const TARGET_LABEL: string := "adwaita_render_target"

  /** Bevy's `ManualTextureView`: a texture view a camera can render into, with
      the size and format the camera renders at. */
  datatype ManualTextureView = ManualTextureView(
    textureView: Wgpu.TextureView,
    size: UVec2,
    format: Wgpu.TextureFormat)

  /** What the driver returns to the exporter: the created image, the size its
      memory requirements call for, the allocated memory, the exported file
      descriptor and the texture view wgpu derives from the image. */
  datatype NativeResults = NativeResults(
    image: Vulkan.Image,
    requiredSize: nat,
    memory: Vulkan.DeviceMemory,
    fd: int32,
    view: Wgpu.TextureView)

  /** Everything the exporter hands to the driver, and what it returns. */
  datatype RenderTarget = RenderTarget(
    image: Vulkan.ImageCreateInfo,
    allocation: Vulkan.MemoryAllocateInfo,
    binding: Vulkan.BindImageMemoryInfo,
    fdRequest: Vulkan.MemoryGetFdInfo,
    halTexture: WgpuHal.TextureDescriptor,
    texture: Wgpu.TextureDescriptor,
    view: ManualTextureView,
    fd: int32)

  /** The Vulkan image, the wgpu-hal texture, the wgpu texture and the manual
      texture view describe one texture: each level is the translation of the
      level above it, for extent, format, usage, mips, samples and dimension. */
  predicate DescriptorsAgree(t: RenderTarget) {
    && Conv.VkExtent(t.halTexture.size) == t.image.extent
    && t.texture.size == t.halTexture.size
    && t.view.size == UVec2(t.texture.size.width, t.texture.size.height)
    && Conv.VkFormat(t.halTexture.format) == t.image.format
    && t.texture.format == t.halTexture.format
    && t.view.format == t.texture.format
    && Conv.HalUsage(t.texture.usage) == t.halTexture.usage
    && Conv.VkUsage(t.halTexture.usage) == t.image.usage
    && t.image.mipLevels == t.halTexture.mipLevelCount == t.texture.mipLevelCount
    && t.image.samples == t.halTexture.sampleCount == t.texture.sampleCount
    && Conv.VkImageType(t.halTexture.dimension) == t.image.imageType
    && t.texture.dimension == t.halTexture.dimension
  }

  /** The memory is exportable as the fd that is requested: the image is created
      for, the memory allocated for, and the fd requested as one handle type,
      opaque fd. */
  predicate ExportConsistent(t: RenderTarget) {
    && t.image.externalHandleTypes == {Vulkan.OpaqueFd}
    && t.allocation.exportHandleTypes == t.image.externalHandleTypes
    && t.fdRequest.handleType in t.allocation.exportHandleTypes
  }

  /** Each driver call is made on the object the previous call produced: the
      memory is dedicated to the created image and as large as its requirements
      say, it is bound to that image, and the fd is requested for it. */
  predicate Chained(t: RenderTarget, native: NativeResults) {
    && t.allocation.dedicatedImage == native.image
    && t.allocation.allocationSize == native.requiredSize
    && t.binding == Vulkan.BindImageMemoryInfo(native.image, native.memory)
    && t.fdRequest.memory == native.memory
    && t.fd == native.fd
    && t.view.textureView == native.view
  }

  /** A single-mip, single-sample, single-layer 2D image of `size` pixels,
      which a camera can render into and which can be copied from. */
  predicate RenderableAt(t: RenderTarget, size: UVec2) {
    && t.image.imageType == Vulkan.Type2D
    && t.image.extent == Vulkan.Extent3D(size.x, size.y, 1)
    && t.image.mipLevels == 1
    && t.image.samples == 1
    && t.image.arrayLayers == 1
    && Vulkan.ColorAttachment in t.image.usage
    && Vulkan.TransferSrc in t.image.usage
  }

  /** `setup_render_target`, with the signature `src/lib.rs` calls it with: the
      caller gets the manual texture view and the fd, and inserts the view
      into its own map. */
  function SetupRenderTarget(size: UVec2, native: NativeResults): (t: RenderTarget)
    ensures t.view.size == size && t.view.format == TEXTURE_FORMAT
    ensures t.fd == native.fd
    ensures t.image.format == Vulkan.R8G8B8A8Srgb
    ensures t.image.usage == {Vulkan.TransferSrc, Vulkan.ColorAttachment}
    ensures t.image.tiling == Vulkan.Optimal
    ensures t.image.sharingMode == Vulkan.Exclusive && t.image.initialLayout == Vulkan.Undefined
    ensures DescriptorsAgree(t)
    ensures ExportConsistent(t)
    ensures Chained(t, native)
    ensures RenderableAt(t, size)
  {
    var image := Vulkan.ImageCreateInfo(
      externalHandleTypes := {Vulkan.OpaqueFd},
      imageType := Vulkan.Type2D,
      format := Vulkan.R8G8B8A8Srgb,
      extent := Vulkan.Extent3D(size.x, size.y, 1),
      mipLevels := 1,
      arrayLayers := 1,
      samples := 1,
      tiling := Vulkan.Optimal,
      usage := {Vulkan.TransferSrc, Vulkan.ColorAttachment},
      sharingMode := Vulkan.Exclusive,
      initialLayout := Vulkan.Undefined);
    var allocation := Vulkan.MemoryAllocateInfo(
      allocationSize := native.requiredSize,
      exportHandleTypes := {Vulkan.OpaqueFd},
      dedicatedImage := native.image);
    var extent := Wgpu.Extent3d(size.x, size.y, 1);
    var halTexture := WgpuHal.TextureDescriptor(
      debugLabel := TARGET_LABEL,
      size := extent,
      mipLevelCount := 1,
      sampleCount := 1,
      dimension := Wgpu.D2,
      format := Wgpu.Rgba8UnormSrgb,
      usage := {WgpuHal.CopySrc, WgpuHal.ColorTarget},
      memoryFlags := {},
      viewFormats := []);
    var texture := Wgpu.TextureDescriptor(
      debugLabel := TARGET_LABEL,
      size := extent,
      mipLevelCount := 1,
      sampleCount := 1,
      dimension := Wgpu.D2,
      format := Wgpu.Rgba8UnormSrgb,
      usage := {Wgpu.CopySrc, Wgpu.RenderAttachment},
      viewFormats := []);
    assert Conv.HalUsage(texture.usage) == halTexture.usage by {
      assert WgpuHal.CopySrc in Conv.HalUses(Wgpu.CopySrc);
      assert WgpuHal.ColorTarget in Conv.HalUses(Wgpu.RenderAttachment);
    }
    assert Conv.VkUsage(halTexture.usage) == image.usage by {
      assert Vulkan.TransferSrc in Conv.VkUsages(WgpuHal.CopySrc);
      assert Vulkan.ColorAttachment in Conv.VkUsages(WgpuHal.ColorTarget);
    }
    RenderTarget(
      image := image,
      allocation := allocation,
      binding := Vulkan.BindImageMemoryInfo(native.image, native.memory),
      fdRequest := Vulkan.MemoryGetFdInfo(native.memory, Vulkan.OpaqueFd),
      halTexture := halTexture,
      texture := texture,
      view := ManualTextureView(native.view, size, TEXTURE_FORMAT),
      fd := native.fd)
  }

  /** One memory plane of a dma-buf texture. */
  datatype DmabufPlane = DmabufPlane(fd: int32, offset: uint32, stride: uint32)

  /** The values handed to GDK's `DmabufTextureBuilder`. */
  datatype DmabufTexture = DmabufTexture(
    width: uint32,
    height: uint32,
    fourcc: uint32,
    modifier: nat,
    planes: seq<DmabufPlane>)

  /** `build_dmabuf_texture`: one plane, at offset 0, rows of `size.x` RGBA
      texels, in the "RA24" layout with no tiling modifier. The stride is a
      `u32` product, so it must not overflow. */
  function BuildDmabufTexture(size: UVec2, fd: int32): (d: DmabufTexture)
    requires size.x * 4 < U32_END
    ensures d.width == size.x && d.height == size.y
    ensures d.fourcc == Fourcc.RGBA8888
    ensures d.modifier == 0
    ensures |d.planes| == 1
    ensures d.planes[0].fd == fd && d.planes[0].offset == 0
    ensures d.planes[0].stride == Wgpu.BytesPerTexel(TEXTURE_FORMAT) * size.x
  {
    DmabufTexture(
      width := size.x,
      height := size.y,
      fourcc := 0x34324152,
      modifier := 0,
      planes := [DmabufPlane(fd, 0, size.x * 4)])
  }

  /** The surface the UI side builds from an export has the exported image's
      width and height and its fd, and rows as wide as the image's texels.
      Pixel layout is not compared: the fourcc, the modifier and the memory
      handle type are stated only as constants. */
  lemma DmabufDescribesTarget(size: UVec2, native: NativeResults)
    requires size.x * 4 < U32_END
    ensures var t := SetupRenderTarget(size, native);
            var d := BuildDmabufTexture(t.view.size, t.fd);
            && d.width == t.image.extent.width
            && d.height == t.image.extent.height
            && d.planes[0].fd == native.fd
            && d.planes[0].stride == Wgpu.BytesPerTexel(t.texture.format) * t.image.extent.width
  {
  }
}

=== FILE: vulkan.dfy ===
/** The part of the Vulkan API that the render-target exporter fills in. Each
    enumeration is a subset of the Vulkan enumeration or flag type of the same
    name, holding the values the exporter uses and a few others of that type.
    Object handles are opaque identities returned by the driver. */
module Vulkan {
  import opened Common

  /** Part of `VkFormat`. */
  datatype Format = R8G8B8A8Unorm | R8G8B8A8Srgb | B8G8R8A8Unorm | B8G8R8A8Srgb

  /** `VkImageType`. */
  datatype ImageType = Type1D | Type2D | Type3D

  /** Part of `VkImageTiling`. */
  datatype ImageTiling = Optimal | Linear

  /** Part of the bits of `VkImageUsageFlagBits`. */
  datatype ImageUsage =
    | TransferSrc | TransferDst | Sampled | Storage
    | ColorAttachment | DepthStencilAttachment

  /** `VkSharingMode`. */
  datatype SharingMode = Exclusive | Concurrent

  /** Part of `VkImageLayout`. */
  datatype ImageLayout = Undefined | General | ColorAttachmentOptimal

  /** Part of the bits of `VkExternalMemoryHandleTypeFlagBits`. */
  datatype ExternalMemoryHandleType = OpaqueFd | OpaqueWin32 | DmaBuf

  datatype Extent3D = Extent3D(width: uint32, height: uint32, depth: uint32)

  /** A `VkImage` handle. */
  datatype Image = Image(id: nat)

  /** A `VkDeviceMemory` handle. */
  datatype DeviceMemory = DeviceMemory(id: nat)

  /** `VkImageCreateInfo` together with its chained
      `VkExternalMemoryImageCreateInfo` (the `externalHandleTypes` field).
      `samples` is the sample count the `VkSampleCountFlags` bit stands for. */
  datatype ImageCreateInfo = ImageCreateInfo(
    externalHandleTypes: set<ExternalMemoryHandleType>,
    imageType: ImageType,
    format: Format,
    extent: Extent3D,
    mipLevels: uint32,
    arrayLayers: uint32,
    samples: uint32,
    tiling: ImageTiling,
    usage: set<ImageUsage>,
    sharingMode: SharingMode,
    initialLayout: ImageLayout)

  /** `VkMemoryAllocateInfo` chained with `VkExportMemoryAllocateInfo`
      (`exportHandleTypes`) and `VkMemoryDedicatedAllocateInfo` (`dedicatedImage`). */
  datatype MemoryAllocateInfo = MemoryAllocateInfo(
    allocationSize: nat,
    exportHandleTypes: set<ExternalMemoryHandleType>,
    dedicatedImage: Image)

  /** `VkBindImageMemoryInfo`. */
  datatype BindImageMemoryInfo = BindImageMemoryInfo(image: Image, memory: DeviceMemory)

  /** `VkMemoryGetFdInfoKHR`. */
  datatype MemoryGetFdInfo = MemoryGetFdInfo(memory: DeviceMemory, handleType: ExternalMemoryHandleType)
}

=== FILE: wgpu.dfy ===
/** The wgpu types the exporter hands to the rendering pipeline: texture
    formats, extents and the public texture descriptor. */
module Wgpu {
  import opened Common

  datatype TextureFormat = Rgba8Unorm | Rgba8UnormSrgb | Bgra8Unorm | Bgra8UnormSrgb

  datatype TextureDimension = D1 | D2 | D3

  datatype Extent3d = Extent3d(width: uint32, height: uint32, depthOrArrayLayers: uint32)

  /** The flags of `wgpu::TextureUsages`. */
  datatype TextureUsage = CopySrc | CopyDst | TextureBinding | StorageBinding | RenderAttachment

  /** A texture view handle; the rendering pipeline keeps it alive by shared ownership. */
  datatype TextureView = TextureView(id: nat)

  /** `wgpu::TextureDescriptor`. */
  datatype TextureDescriptor = TextureDescriptor(
    debugLabel: string,
    size: Extent3d,
    mipLevelCount: uint32,
    sampleCount: uint32,
    dimension: TextureDimension,
    format: TextureFormat,
    usage: set<TextureUsage>,
    viewFormats: seq<TextureFormat>)

  /** Bytes per texel of each (uncompressed, single-plane) format. */
  function BytesPerTexel(f: TextureFormat): nat {
    match f
    case Rgba8Unorm => 4
    case Rgba8UnormSrgb => 4
    case Bgra8Unorm => 4
    case Bgra8UnormSrgb => 4
  }
}

/** The wgpu-hal texture descriptor, the level between wgpu and Vulkan. */
module WgpuHal {
  import opened Common
  import Wgpu

  /** The flags of `wgpu_hal::TextureUses`. */
  datatype TextureUse =
    | CopySrc | CopyDst | Resource | ColorTarget
    | DepthStencilRead | DepthStencilWrite | StorageRead | StorageReadWrite

  /** The flags of `wgpu_hal::MemoryFlags`. */
  datatype MemoryFlag = Transient | PreferCoherent

  /** `wgpu_hal::TextureDescriptor`. */
  datatype TextureDescriptor = TextureDescriptor(
    debugLabel: string,
    size: Wgpu.Extent3d,
    mipLevelCount: uint32,
    sampleCount: uint32,
    dimension: Wgpu.TextureDimension,
    format: Wgpu.TextureFormat,
    usage: set<TextureUse>,
    memoryFlags: set<MemoryFlag>,
    viewFormats: seq<Wgpu.TextureFormat>)
}

/** How each level of the stack translates the level above it: the tables
    wgpu and wgpu-hal apply when a wgpu descriptor is lowered to wgpu-hal and a
    wgpu-hal descriptor to Vulkan (colour formats only). Agreement between the
    exporter's three descriptors is stated through these tables. */
module Conv {
  import opened Common
  import Wgpu
  import WgpuHal
  import Vulkan

  function VkFormat(f: Wgpu.TextureFormat): Vulkan.Format {
    match f
    case Rgba8Unorm => Vulkan.R8G8B8A8Unorm
    case Rgba8UnormSrgb => Vulkan.R8G8B8A8Srgb
    case Bgra8Unorm => Vulkan.B8G8R8A8Unorm
    case Bgra8UnormSrgb => Vulkan.B8G8R8A8Srgb
  }

  function VkImageType(d: Wgpu.TextureDimension): Vulkan.ImageType {
    match d
    case D1 => Vulkan.Type1D
    case D2 => Vulkan.Type2D
    case D3 => Vulkan.Type3D
  }

  function VkExtent(e: Wgpu.Extent3d): Vulkan.Extent3D {
    Vulkan.Extent3D(e.width, e.height, e.depthOrArrayLayers)
  }

  /** wgpu usage flag to wgpu-hal uses, for a colour texture. */
  function HalUses(u: Wgpu.TextureUsage): set<WgpuHal.TextureUse> {
    match u
    case CopySrc => {WgpuHal.CopySrc}
    case CopyDst => {WgpuHal.CopyDst}
    case TextureBinding => {WgpuHal.Resource}
    case StorageBinding => {WgpuHal.StorageRead, WgpuHal.StorageReadWrite}
    case RenderAttachment => {WgpuHal.ColorTarget}
  }

  /** wgpu-hal use to Vulkan image usage. */
  function VkUsages(u: WgpuHal.TextureUse): set<Vulkan.ImageUsage> {
    match u
    case CopySrc => {Vulkan.TransferSrc}
    case CopyDst => {Vulkan.TransferDst}
    case Resource => {Vulkan.Sampled}
    case ColorTarget => {Vulkan.ColorAttachment}
    case DepthStencilRead => {Vulkan.DepthStencilAttachment}
    case DepthStencilWrite => {Vulkan.DepthStencilAttachment}
    case StorageRead => {Vulkan.Storage}
    case StorageReadWrite => {Vulkan.Storage}
  }

  function HalUsage(us: set<Wgpu.TextureUsage>): set<WgpuHal.TextureUse> {
    set u, h | u in us && h in HalUses(u) :: h
  }

  function VkUsage(us: set<WgpuHal.TextureUse>): set<Vulkan.ImageUsage> {
    set u, v | u in us && v in VkUsages(u) :: v
  }
}

=== FILE: window.dfy ===
/** The main-app side of a bridged window (`src/lib.rs`): the `AdwaitaWindow`
    component, opening a window, and the per-window resize poll that re-exports
    the render target when the window's pixel size changes. */
module Window {
  import opened Common
  import Wgpu
  import Render

  /** `ManualTextureViewHandle`: a `u32` key into the manual texture views map. */
  type Handle = uint32

  /** Bevy's `ManualTextureViews` resource. */
  type Views = map<Handle, Render.ManualTextureView>

  /** `DmabufInfo`: what the UI side needs to import an exported image. */
  datatype DmabufInfo = DmabufInfo(size: UVec2, fd: int32)

  /** `FrameInfo`: an exported image on its way to the UI side. It keeps the
      texture view alive for as long as the frame is in flight. */
  datatype Frame = Frame(dmabuf: DmabufInfo, textureView: Wgpu.TextureView)

  /** The `AdwaitaWindow` component. `closed`, `width`, `height` and
      `scaleFactor` are the atomics the UI thread writes; `nextToRender` is
      slot A (written by the poll, drained by extraction) and `sharedNextFrame`
      is slot B (written by the render app, drained by the UI thread).
      `primary` is the `PrimaryAdwaitaWindow` marker on the same entity. */
  datatype Window = Window(
    closed: bool,
    width: int32,
    height: int32,
    scaleFactor: int32,
    handle: Handle,
    lastSize: UVec2,
    nextToRender: Option<Frame>,
    sharedNextFrame: Option<Frame>,
    primary: bool)

  /** The value of the size and scale atomics until the UI thread reports. */
  const SENTINEL: int32 := -1

  /** The component `AdwaitaWindow::open` inserts: open, not yet reported, with
      nothing applied and both slots empty. */
  function Opened(handle: Handle, primary: bool): (r: Window)
    ensures !r.closed && !Reported(r)
    ensures r.width == SENTINEL && r.height == SENTINEL && r.scaleFactor == SENTINEL
    ensures r.lastSize == UVec2(0, 0)
    ensures r.nextToRender.None? && r.sharedNextFrame.None?
    ensures r.handle == handle && r.primary == primary
  {
    Window(
      closed := false,
      width := SENTINEL,
      height := SENTINEL,
      scaleFactor := SENTINEL,
      handle := handle,
      lastSize := UVec2(0, 0),
      nextToRender := None,
      sharedNextFrame := None,
      primary := primary)
  }

  /** The UI thread has reported all of width, height and scale factor. */
  predicate Reported(w: Window) {
    0 <= w.width && 0 <= w.height && 0 <= w.scaleFactor
  }

  /** The pixel size the poll computes is a pair of `u32` products; they must
      not overflow. */
  predicate SizeFits(w: Window) {
    !w.closed && Reported(w) ==>
      Max(w.width, 1) * w.scaleFactor < U32_END && Max(w.height, 1) * w.scaleFactor < U32_END
  }

  /** Fewer than `n` integers leave some value in `[0, n)` unused. */
  lemma {:induction false} FreeBelow(used: set<int>, n: nat)
    requires |used| < n
    ensures exists i :: 0 <= i < n && i !in used
    decreases n
  {
    if n - 1 in used {
      FreeBelow(used - {n - 1}, n - 1);
      var i :| 0 <= i < n - 1 && i !in used - {n - 1};
      assert i !in used;
    }
  }

  /** The handle-selection loop of `AdwaitaWindow::open`: draw random handles
      until one is not in use. The random draw is a nondeterministic choice;
      the loop ends only if some handle is free. */
  method ChooseHandle(inUse: set<Handle>) returns (h: Handle)
    requires |inUse| < U32_END
    ensures h !in inUse
  {
    FreeBelow(inUse, U32_END);
    h :| 0 <= h < U32_END && h !in inUse;
  }

  /** The outcome of polling one window. `exported` is the frame stored in slot A
      when the poll exported a new render target. */
  datatype Polled =
    | Despawned
    | Kept(window: Window, views: Views, exported: Option<Frame>)

  /** `poll_windows` for one window. A closed window is despawned. Until width,
      height and scale factor are all non-negative, the window is skipped.
      Otherwise the pixel size is `(max(width, 1) * scale, max(height, 1) * scale)`;
      when it differs from the last applied size a render target of that size
      is exported, its view replaces the window's entry in the views map and a
      fresh frame overwrites slot A. */
  function Poll(w: Window, views: Views, native: Render.NativeResults): (r: Polled)
    requires SizeFits(w)
    ensures r.Despawned? <==> w.closed
    ensures !w.closed ==> r.Kept? && PolledAs(w, r.window, native)
    ensures !w.closed && !Reported(w) ==> r == Kept(w, views, None)
    ensures r.Kept? && Reported(w) ==>
      r.window.lastSize == UVec2(Max(w.width, 1) * w.scaleFactor, Max(w.height, 1) * w.scaleFactor)
    ensures r.Kept? ==> (r.exported.Some? <==> r.window.lastSize != w.lastSize)
    ensures r.Kept? && r.exported.None? ==> r.window == w && r.views == views
    ensures r.Kept? && r.exported.Some? ==>
      var f := r.exported.value;
      && f.dmabuf.size == r.window.lastSize
      && f.dmabuf.fd == native.fd
      && f.textureView == native.view
      && r.window == w.(lastSize := f.dmabuf.size, nextToRender := Some(f))
      && r.views == views[w.handle := Render.ManualTextureView(f.textureView, f.dmabuf.size, Render.TEXTURE_FORMAT)]
  {
    if w.closed then Despawned
    else
      match (TryU32(w.width), TryU32(w.height), TryU32(w.scaleFactor))
      case (Some(width), Some(height), Some(scale)) =>
        var size := UVec2(Max(width, 1) * scale, Max(height, 1) * scale);
        if size == w.lastSize then Kept(w, views, None)
        else
          var target := Render.SetupRenderTarget(size, native);
          var frame := Frame(DmabufInfo(size, target.fd), target.view.textureView);
          Kept(w.(lastSize := size, nextToRender := Some(frame)), views[w.handle := target.view], Some(frame))
      case _ => Kept(w, views, None)
  }

  /** As written, a report at scale factor 0 following a non-empty size is a
      change of size: the poll exports a render target of 0x0 pixels, whose
      Vulkan image has an extent of width and height 0. */
  lemma ZeroScaleExportsEmptyTarget(w: Window, views: Views, native: Render.NativeResults)
    requires !w.closed && w.lastSize == UVec2(800, 600)
    requires w.width == 800 && w.height == 600 && w.scaleFactor == 0
    ensures var p := Poll(w, views, native);
            && p.Kept? && p.exported.Some?
            && p.exported.value.dmabuf.size == UVec2(0, 0)
            && Render.SetupRenderTarget(p.exported.value.dmabuf.size, native).image.extent.width == 0
            && Render.SetupRenderTarget(p.exported.value.dmabuf.size, native).image.extent.height == 0
  {
  }

  /** Reference for the poll of an open window `w` that yields `w'`: once
      width, height and scale factor are reported, the applied size is the
      computed size, and a change of it puts the driver's frame for that size
      into slot A; in every other case the window is left as it was. */
  predicate PolledAs(w: Window, w': Window, native: Render.NativeResults)
    requires SizeFits(w) && !w.closed
  {
    if Reported(w) then
      var size := UVec2(Max(w.width, 1) * w.scaleFactor, Max(w.height, 1) * w.scaleFactor);
      if size == w.lastSize then w' == w
      else w' == w.(lastSize := size, nextToRender := Some(Frame(DmabufInfo(size, native.fd), native.view)))
    else w' == w
  }

  /** The poll with a guard against empty sizes: a report that resolves to a
      zero pixel size (scale factor 0) is treated like one not yet made. The
      poll then never exports an empty render target. */
  function PollNonEmpty(w: Window, views: Views, native: Render.NativeResults): (r: Polled)
    requires SizeFits(w)
    ensures r.Despawned? <==> w.closed
    ensures !w.closed && w.scaleFactor == 0 ==> r == Kept(w, views, None)
    ensures r.Kept? ==> (r.exported.Some? <==> r.window.lastSize != w.lastSize)
    ensures r.Kept? && r.exported.Some? ==>
      var f := r.exported.value;
      && 0 < f.dmabuf.size.x && 0 < f.dmabuf.size.y
      && r.window.nextToRender == Some(f)
      && r.views == views[w.handle := Render.ManualTextureView(f.textureView, f.dmabuf.size, Render.TEXTURE_FORMAT)]
    ensures r.Kept? && r.exported.None? ==> r.views == views
    ensures w.scaleFactor != 0 ==> r == Poll(w, views, native)
  {
    if !w.closed && w.scaleFactor == 0 then Kept(w, views, None)
    else Poll(w, views, native)
  }

  /** One report of the UI thread: new values of the three size atomics. */
  datatype Report = Report(width: int32, height: int32, scaleFactor: int32)

  function WithReport(w: Window, rep: Report): Window {
    w.(width := rep.width, height := rep.height, scaleFactor := rep.scaleFactor)
  }

  /** A report whose pixel size fits in `u32`. */
  predicate ReportFits(rep: Report) {
    0 <= rep.width && 0 <= rep.height && 0 <= rep.scaleFactor ==>
      Max(rep.width, 1) * rep.scaleFactor < U32_END && Max(rep.height, 1) * rep.scaleFactor < U32_END
  }

  /** Reference definition of the resize policy, independent of windows and
      exports: the size in force after a report (a report with a negative value
      leaves it alone)... */
  function Applied(last: UVec2, rep: Report): UVec2
    requires ReportFits(rep)
  {
    if 0 <= rep.width && 0 <= rep.height && 0 <= rep.scaleFactor
    then UVec2(Max(rep.width, 1) * rep.scaleFactor, Max(rep.height, 1) * rep.scaleFactor)
    else last
  }

  /** ... and the number of reports that change it. */
  function Changes(last: UVec2, reps: seq<Report>): nat
    requires forall i :: 0 <= i < |reps| ==> ReportFits(reps[i])
    decreases |reps|
  {
    if |reps| == 0 then 0
    else
      var next := Applied(last, reps[0]);
      (if next != last then 1 else 0) + Changes(next, reps[1..])
  }

  /** Alternate reports and polls on an open window; the count is the number
      of exports. */
  function PollAfterEach(w: Window, views: Views, reps: seq<Report>, native: Render.NativeResults): (r: (Window, Views, nat))
    requires !w.closed
    requires forall i :: 0 <= i < |reps| ==> ReportFits(reps[i])
    decreases |reps|
  {
    if |reps| == 0 then (w, views, 0)
    else
      assert ReportFits(reps[0]);
      var p := Poll(WithReport(w, reps[0]), views, native);
      var rest := PollAfterEach(p.window, p.views, reps[1..], native);
      (rest.0, rest.1, rest.2 + if p.exported.Some? then 1 else 0)
  }

  /** The poll exports exactly once per change of computed pixel size: reports
      that resolve to the size already applied never export. */
  lemma {:induction false} ExportsAreSizeChanges(w: Window, views: Views, reps: seq<Report>, native: Render.NativeResults)
    requires !w.closed
    requires forall i :: 0 <= i < |reps| ==> ReportFits(reps[i])
    ensures PollAfterEach(w, views, reps, native).2 == Changes(w.lastSize, reps)
    ensures PollAfterEach(w, views, reps, native).0.lastSize == LastApplied(w.lastSize, reps)
    decreases |reps|
  {
    if |reps| > 0 {
      var p := Poll(WithReport(w, reps[0]), views, native);
      assert p.window.lastSize == Applied(w.lastSize, reps[0]);
      ExportsAreSizeChanges(p.window, p.views, reps[1..], native);
    }
  }

  /** The size in force after all of `reps`. */
  function LastApplied(last: UVec2, reps: seq<Report>): UVec2
    requires forall i :: 0 <= i < |reps| ==> ReportFits(reps[i])
    decreases |reps|
  {
    if |reps| == 0 then last else LastApplied(Applied(last, reps[0]), reps[1..])
  }

  /** Since the last applied size starts at (0, 0), a window whose every report
      has scale factor 0 never exports. */
  lemma {:induction false} ScaleZeroNeverExports(reps: seq<Report>)
    requires forall i :: 0 <= i < |reps| ==> ReportFits(reps[i]) && reps[i].scaleFactor == 0
    ensures Changes(UVec2(0, 0), reps) == 0
    decreases |reps|
  {
    if |reps| > 0 {
      assert Applied(UVec2(0, 0), reps[0]) == UVec2(0, 0);
      ScaleZeroNeverExports(reps[1..]);
    }
  }

  /** The same report twice in a row exports at most once. */
  lemma RepeatedReportExportsAtMostOnce(last: UVec2, rep: Report)
    requires ReportFits(rep)
    ensures Changes(last, [rep, rep]) <= 1
  {
    var next := Applied(last, rep);
    assert [rep, rep][1..] == [rep];
    assert Applied(next, rep) == next;
    assert Changes(next, [rep]) == 0 by {
      assert [rep][1..] == [];
    }
  }

  /** Reports of (800, 600, scale 1) twice on a freshly opened window yield
      exactly one export, of an 800x600 target. */
  lemma DuplicateReportExportsOnce(h: Handle, primary: bool, views: Views, native: Render.NativeResults)
    ensures var reps := [Report(800, 600, 1), Report(800, 600, 1)];
            var r := PollAfterEach(Opened(h, primary), views, reps, native);
            r.2 == 1 && r.0.lastSize == UVec2(800, 600)
  {
    var reps := [Report(800, 600, 1), Report(800, 600, 1)];
    ExportsAreSizeChanges(Opened(h, primary), views, reps, native);
    assert reps[1..] == [Report(800, 600, 1)];
  }

  /** A freshly opened window, still at the sentinel, is skipped by every poll
      until the UI thread reports. */
  lemma OpenedIsSkipped(h: Handle, primary: bool, views: Views, native: Render.NativeResults)
    ensures Poll(Opened(h, primary), views, native) == Kept(Opened(h, primary), views, None)
  {
  }
}
